=== FILE: README.md ===
# ParameterList — a verified model of the query parameter registry

This project models `ParameterList` from node-data-mapper's query layer. A query builder uses it to
bind values into generated SQL. It holds a map from parameter key to value and a counter that numbers
generated parameter names. It offers four operations:

- `createParameterName(key)` makes a fresh name: the key with every non-word character turned into `_`,
  then `_` and the counter. The counter then goes up by one.
- `addParameter(key, value, overwrite)` stores a value under a key. It refuses a key outside the pattern
  `^[A-Za-z][\w\-]*$`. Without `overwrite` it also refuses to replace a different value.
- `addParameters(params, overwrite)` applies `addParameter` to each entry in order. It stops at the first
  entry that throws, and does not undo the entries before it.
- The constructor creates an empty list, or copies another list's entries and continues its counter.

The model is functional. A list is the immutable datatype `ParameterList(params, nextId)`, and every
operation returns a new list. A thrown `ConditionError` becomes a `Failure` carrying
`KeyFormat(key)` or `Conflict(key)`. `addParameters` returns `Done(list)`, or `Stopped(error, at, partial)`
to show how far it got. The order of a `for…in` loop is a parameter: `addParameters` takes a sequence of
entries, and the copy constructor takes `order`, a listing of the source's keys. The proofs show that whether the copy succeeds, and the list it returns, do not depend on that order;
which malformed key a failed copy reports does.

Files, one module each:

- `results.dfy`: `Option` and `Result`.
- `decimal.dfy`: how a template literal renders the counter in decimal, and the parse that reads it back.
- `key_grammar.dfy`: the `\w` class, the key pattern, and the sanitiser.
- `parameter_names.dfy`: generated names and `SplitName`, which takes a name apart again.
- `parameter_lists.dfy`: the list and its operations.
- `namespace.dfy`: any sequence of calls on a list, and the guarantee that names never repeat, across a
  copy too.
- `prototype_lookup.dfy`: the conflict test as written, which reads through `Object.prototype` (see Findings).

## Model

| member | source | states |
|---|---|---|
| ParameterLists.Fresh | query/ParameterList.js:21-28 | A list built without a source has no parameters, counter 0, and only well-formed keys. |
| ParameterLists.CreateParameterName | query/ParameterList.js:37-39 | The returned name is the sanitised key, `_`, and the counter before the call in canonical decimal, and it splits back into those two parts. The map is unchanged and the counter goes up by exactly one. |
| ParameterLists.AddParameter | query/ParameterList.js:51-61 | A key outside the pattern fails with `KeyFormat`. Without overwrite, a present key with a different value fails with `Conflict`. It succeeds iff the key is valid and (overwrite, or key absent, or same value). On success the key maps to the value, the key set grows by that key only, every other key keeps its value, the counter is unchanged, and well-formedness is kept. (Own-entry lookup; see Findings.) |
| ParameterLists.AddParameterIdempotent | query/ParameterList.js:55-58 | After a successful add, adding the same pair again succeeds with either flag and returns the same list. |
| ParameterLists.AddParameters | query/ParameterList.js:70-76 | The counter is unchanged whether the batch completes or stops. A stop index lies inside the batch. A well-formed list stays well formed, even when partially applied. |
| ParameterLists.AdmissibleStep | query/ParameterList.js:55-58 | A batch is admissible iff its first entry is accepted by the map and the rest is admissible against the map with that entry stored. |
| ParameterLists.AddParametersCharacterised | query/ParameterList.js:70-76 | Without reference to the fold, `addParameters` completes iff every key is valid and (unless overwriting) no key gets two different values, against the map or within the batch. It then stores all entries in order. If it stops at entry `at`, exactly the entries before `at` are stored, and they form an admissible batch. Nothing after `at` is applied. Entry `at` is refused by the list those entries leave. |
| ParameterLists.CopyEntries | query/ParameterList.js:23-24 | Adding distinct keys that the target lacks, without overwrite, completes iff every copied key is valid. It then adds exactly the copied entries. A copy that stops, stops with `KeyFormat` on a copied key that is malformed. |
| ParameterLists.RestrictStep | query/ParameterList.js:23-24 | Storing the first listed entry, then the rest, gives the same map as storing all listed entries. |
| ParameterLists.CopyIntoFresh | query/ParameterList.js:21-24 | Adding a source's entries to a fresh list, in any enumeration order, completes iff every source key is well formed. It then holds exactly the source's map. Otherwise it stops with `KeyFormat` on a malformed source key. |
| ParameterLists.CopyFrom | query/ParameterList.js:13-29 | For every enumeration order, copy-construction succeeds iff every source key matches the pattern, and then returns a list equal to the source: the same map and the same counter. On failure the error is `KeyFormat` of a malformed source key. (Own-entry lookup; see Findings.) |
| KeyGrammar.MatchesKeyPattern | query/ParameterList.js:52 | A single left-to-right scan answers true iff the key matches `^[A-Za-z][\w\-]*$`. |
| KeyGrammar.Sanitize | query/ParameterList.js:38 | The result has the key's length and contains only word characters. Word characters stay in place and every non-word character becomes `_`. |
| KeyGrammar.SanitizeFixesWordStrings | query/ParameterList.js:38 | Sanitising leaves a key unchanged iff the key contains only word characters. |
| KeyGrammar.SanitizeIdempotent | query/ParameterList.js:38 | Sanitising twice gives the same result as sanitising once. |
| KeyGrammar.SanitizeKeepsLeadingLetter | query/ParameterList.js:38 | A sanitised key starts with a letter iff the key does. |
| Decimal.NatToString | query/ParameterList.js:38 | The rendered counter is a non-empty string of digits with no leading zero, and `"0"` for zero. |
| Decimal.ParseNatToString | query/ParameterList.js:38 | Parsing the rendered counter gives the counter back. |
| Decimal.NatToStringInjective | query/ParameterList.js:38 | Two counters render alike iff they are equal. |
| ParameterNames.SplitParameterName | query/ParameterList.js:38 | Splitting a generated name at its last underscore returns exactly the sanitised key and the counter it was made from. |
| ParameterNames.ParameterNamesDistinct | query/ParameterList.js:38 | Two generated names are equal iff their sanitised keys and their counters are equal. |
| ParameterNames.ParameterNameIsValidKey | query/ParameterList.js:37-53 | A generated name is itself accepted by `addParameter` iff the key it came from starts with an ASCII letter. |
| Namespace.Perform | query/ParameterList.js:31-76 | After one call, the counter has gone up by the number of names returned, and each returned name carries the counter from before the call. A failed add leaves the list well formed, and so does a partial batch. (Own-entry lookup; see Findings.) |
| Namespace.RunNumbersNames | query/ParameterList.js:38 | Over any sequence of calls, the i-th generated name carries counter `start + i`, and the counter ends at `start` plus the number of names. (Own-entry lookup; see Findings.) |
| Namespace.RunNamesDistinct | query/ParameterList.js:38 | No two names generated over any sequence of calls are equal, whatever the keys. (Own-entry lookup; see Findings.) |
| Namespace.RunPreservesWellFormed | query/ParameterList.js:51-76 | Every stored key still matches the pattern after any sequence of calls, failed ones included. (Own-entry lookup; see Findings.) |
| Namespace.CreateTwiceDistinct | query/ParameterList.js:37-39 | Two consecutive `createParameterName` calls return different names, even for the same key. |
| Namespace.CopyContinuesNamespace | query/ParameterList.js:23-25 | A list reached by calls from a well-formed list can always be copied. The copy never generates a name the original generated before the copy. (Own-entry lookup; see Findings.) |
| PrototypeLookup.Lookup | query/ParameterList.js:55 | For a key that passes the key pattern, reading `params[key]` on the object finds nothing iff the key is neither held nor an inherited `Object.prototype` member. A held key yields its own value. |
| PrototypeLookup.AddParameterAsWritten | query/ParameterList.js:51-61 | Without overwrite, an inherited member name that the list does not hold is refused with `Conflict`, on every list. The as-written `addParameter` agrees with the corrected one on every key that is not an inherited member name. Whenever it succeeds, the corrected one succeeds with the same list. |
| PrototypeLookup.ConstructorKeyConflicts | query/ParameterList.js:21-58 | On a new list, `addParameter("constructor", v)` throws `Conflict` as written. The corrected operation stores the value. |
| PrototypeLookup.AddParametersAsWritten | query/ParameterList.js:70-76 | The as-written batch stops inside the batch. Whenever it completes, the corrected batch completes with the same list. |
| PrototypeLookup.CopyFromAsWritten | query/ParameterList.js:13-29 | Whenever the as-written copy succeeds, it agrees with the corrected copy. |
| PrototypeLookup.CopyStopsOnInherited | query/ParameterList.js:23-24 | Copying distinct keys that the target lacks stops, as written, whenever one of them is an inherited name, wherever it comes in the order. |
| PrototypeLookup.CopyOfInheritedKeyFails | query/ParameterList.js:13-29 | For every enumeration order, copying a well-formed list that holds an inherited name throws as written. The corrected copy returns the list unchanged. |
| PrototypeLookup.InheritedKeysConflict | query/ParameterList.js:21-58 | The same holds for every `Object.prototype` member name that passes the key pattern. |

## Left out

- The `Delete` query builder is not modelled: it is a consumer of `ParameterList`, outside this model's scope.
- The base `QueryExecuter` is not modelled: its tests show each base method throws `QueryExecuter::<op> not implemented.`, and it does not touch `ParameterList`.
- The example script `example/delete/deleteMultipleModels.js` is left out. It is MySQL driver I/O, promises and console output.
- The `insulin` dependency-injection registration (query/ParameterList.js:3) and the `ConditionError` class are left out. Errors are two failure tags, and the message text is not reproduced.
- Decimal.NatToString: the counter is an unbounded `nat`. A JavaScript number stops counting exactly above 2^53, and renders in exponent notation from 10^21 on.
- Namespace.RunNamesDistinct: holds for the unbounded counter only. Once `_paramID` reaches 2^53, `this._paramID++` leaves it unchanged, so the source returns the same name twice from then on.
- KeyGrammar.Sanitize: works per Dafny `char` (a Unicode scalar value). JavaScript replaces per UTF-16 code unit, so a character outside the Basic Multilingual Plane becomes two underscores there and one here.
- ParameterLists.AddParameter: values are an abstract type with mathematical equality. JavaScript `!==` is not reflexive on `NaN` and compares objects by identity. Storing `undefined` as a value, which the source then treats as absent, is not modelled.
- ParameterLists.AddParameter: the `Conflict` error carries the key but not the existing value.
- ParameterLists.AddParameters: the batch is a sequence of entries. An object cannot hold a key twice, so this input is more general than the source's.
- Non-string keys are left out. `key.match` and `key.replace` throw a `TypeError` on them in the source.
- Chaining (`return this`) is left out: each operation returns the new list instead.
- PrototypeLookup.AddParameterAsWritten: assumes no caller stores one of the built-in `Object.prototype` functions as a parameter value.

## Findings

| source | as written | input that shows it | evidently intended | confidence | as-written member | corrected member |
|---|---|---|---|---|---|---|
| query/ParameterList.js:55 | `this.params` is an object literal, so `this.params[key]` for an unheld key such as `constructor` or `toString` reads an inherited built-in function instead of `undefined`. The test then reports a conflict. | `new ParameterList().addParameter('constructor', 1)` throws "Parameter "constructor" already exists…". So does copy-constructing from a list that holds `toString` (stored with overwrite). | A key the list does not hold is accepted whatever its name. | high; not executed | PrototypeLookup.AddParameterAsWritten (counterexamples: PrototypeLookup.ConstructorKeyConflicts, PrototypeLookup.CopyOfInheritedKeyFails) | ParameterLists.AddParameter |

=== FILE: decimal.dfy ===
/** Decimal rendering of a counter, as a JavaScript template literal renders an integral
    number, and the parse that reads such a rendering back. */
module Decimal {

  predicate IsDigit(c: char) {
    '0' <= c <= '9'
  }

  predicate AllDigits(s: string) {
    forall i :: 0 <= i < |s| ==> IsDigit(s[i])
  }

  function DigitChar(d: nat): (c: char)
    requires d < 10
    ensures IsDigit(c)
    ensures c as int - '0' as int == d
  {
    ('0' as int + d) as char
  }

  function DigitValue(c: char): (d: nat)
    requires IsDigit(c)
    ensures d < 10
  {
    c as int - '0' as int
  }

  /** The shortest decimal numeral of `n`: at least one digit, and no leading zero
      unless the number is zero itself. */
  function NatToString(n: nat): (s: string)
    ensures |s| > 0 && AllDigits(s)
    ensures n > 0 ==> s[0] != '0'
    ensures n == 0 ==> s == "0"
    decreases n
  {
    if n < 10 then [DigitChar(n)] else NatToString(n / 10) + [DigitChar(n % 10)]
  }

  /** The value of a string of decimal digits, most significant first. */
  function ParseDigits(s: string): nat
    requires AllDigits(s)
    decreases |s|
  {
    if s == [] then 0 else 10 * ParseDigits(s[..|s| - 1]) + DigitValue(s[|s| - 1])
  }

  /** Reading a rendered counter back gives the counter. */
  lemma {:induction false} ParseNatToString(n: nat)
    ensures ParseDigits(NatToString(n)) == n
    decreases n
  {
    var s := NatToString(n);
    if n >= 10 {
      assert s[..|s| - 1] == NatToString(n / 10);
      ParseNatToString(n / 10);
    }
  }

  /** Distinct counters render to distinct numerals. */
  lemma NatToStringInjective(m: nat, n: nat)
    ensures NatToString(m) == NatToString(n) <==> m == n
  {
    ParseNatToString(m);
    ParseNatToString(n);
  }
}

=== FILE: key_grammar.dfy ===
/** The two character classes `ParameterList` works with: the key pattern
    `^[A-Za-z][\w\-]*$` that `addParameter` enforces, and the non-word class `[^\w]`
    that `createParameterName` replaces by underscores. `\w` is the ASCII word class
    of a JavaScript regular expression without the `u` flag. */
module KeyGrammar {
  import opened Decimal

  predicate IsAsciiLetter(c: char) {
    'A' <= c <= 'Z' || 'a' <= c <= 'z'
  }

  /** `\w`: `[A-Za-z0-9_]`. */
  predicate IsWordChar(c: char) {
    IsAsciiLetter(c) || IsDigit(c) || c == '_'
  }

  /** `[\w\-]`: a character allowed after the first one of a key. */
  predicate IsKeyTailChar(c: char) {
    IsWordChar(c) || c == '-'
  }

  predicate IsWordString(s: string) {
    forall i :: 0 <= i < |s| ==> IsWordChar(s[i])
  }

  /** The whole key matches `^[A-Za-z][\w\-]*$`: a letter, then word characters or hyphens. */
  predicate IsValidKey(key: string) {
    && |key| > 0
    && IsAsciiLetter(key[0])
    && forall i :: 1 <= i < |key| ==> IsKeyTailChar(key[i])
  }

  /** Decides `IsValidKey` in one left-to-right pass. */
  method MatchesKeyPattern(key: string) returns (matched: bool)
    ensures matched <==> IsValidKey(key)
  {
    if |key| == 0 || !IsAsciiLetter(key[0]) {
      return false;
    }
    var i := 1;
    while i < |key|
      invariant 1 <= i <= |key|
      invariant forall j :: 1 <= j < i ==> IsKeyTailChar(key[j])
    {
      if !IsKeyTailChar(key[i]) {
        return false;
      }
      i := i + 1;
    }
    return true;
  }

  /** `key.replace(/[^\w]/g, '_')`: every non-word character becomes an underscore,
      every word character stays where it was. */
  function Sanitize(key: string): (s: string)
    ensures |s| == |key|
    ensures IsWordString(s)
    ensures forall i :: 0 <= i < |key| && IsWordChar(key[i]) ==> s[i] == key[i]
    ensures forall i :: 0 <= i < |key| && !IsWordChar(key[i]) ==> s[i] == '_'
    decreases |key|
  {
    if key == [] then []
    else [if IsWordChar(key[0]) then key[0] else '_'] + Sanitize(key[1..])
  }

  /** The sanitiser changes a key exactly when the key holds a non-word character. */
  lemma SanitizeFixesWordStrings(key: string)
    ensures Sanitize(key) == key <==> IsWordString(key)
  {
  }

  /** Sanitising twice is sanitising once. */
  lemma SanitizeIdempotent(key: string)
    ensures Sanitize(Sanitize(key)) == Sanitize(key)
  {
  }

  /** A sanitised key starts with a letter exactly when the key does. */
  lemma SanitizeKeepsLeadingLetter(key: string)
    requires |key| > 0
    ensures IsAsciiLetter(Sanitize(key)[0]) <==> IsAsciiLetter(key[0])
  {
  }
}

=== FILE: namespace.dfy ===
/** Generated parameter names: whatever sequence of calls a caller makes on a list, and
    across a copy of the list, `createParameterName` never returns the same name twice.
    A generated name may still equal a key added explicitly. A caller that catches a `ConditionError` keeps the list in the state the
    failing call left it. */
module Namespace {
  import opened Results
  import opened ParameterNames
  import opened ParameterLists

  /** One public call on a list. */
  datatype Call<V> =
    | CreateName(key: string)
    | Add(key: string, value: V, overwrite: bool)
    | AddAll(entries: seq<(string, V)>, overwrite: bool)

  /** The list a call leaves behind, with the name it returned when it was
      `createParameterName`. */
  function Perform<V(==)>(l: ParameterList<V>, c: Call<V>): (r: (seq<string>, ParameterList<V>))
    ensures r.1.nextId == l.nextId + |r.0|
    ensures forall i :: 0 <= i < |r.0| ==> SplitName(r.0[i]).Some? && SplitName(r.0[i]).value.1 == l.nextId
    ensures WellFormed(l) ==> WellFormed(r.1)
  {
    match c
    case CreateName(key) =>
      var (name, l') := CreateParameterName(l, key);
      ([name], l')
    case Add(key, value, overwrite) =>
      (match AddParameter(l, key, value, overwrite)
       case Success(l') => ([], l')
       case Failure(_) => ([], l))
    case AddAll(entries, overwrite) =>
      (match AddParameters(l, entries, overwrite)
       case Done(l') => ([], l')
       case Stopped(_, _, p) => ([], p))
  }

  /** The names a sequence of calls returns, in order, and the list they leave. */
  function Run<V(==)>(l: ParameterList<V>, calls: seq<Call<V>>): (seq<string>, ParameterList<V>)
    decreases |calls|
  {
    if calls == [] then ([], l)
    else
      var (names, l1) := Perform(l, calls[0]);
      var (more, l2) := Run(l1, calls[1..]);
      (names + more, l2)
  }

  /** The `i`-th name a run hands out carries the counter value `l.nextId + i`, and the
      counter ends one past the last of them. */
  lemma {:induction false} RunNumbersNames<V>(l: ParameterList<V>, calls: seq<Call<V>>)
    ensures var (names, last) := Run(l, calls);
            && last.nextId == l.nextId + |names|
            && forall i :: 0 <= i < |names| ==>
                 SplitName(names[i]).Some? && SplitName(names[i]).value.1 == l.nextId + i
    decreases |calls|
  {
    if calls != [] {
      var (names, l1) := Perform(l, calls[0]);
      var (more, l2) := Run(l1, calls[1..]);
      RunNumbersNames(l1, calls[1..]);
      var all := names + more;
      forall i | 0 <= i < |all|
        ensures SplitName(all[i]).Some? && SplitName(all[i]).value.1 == l.nextId + i
      {
        if i >= |names| {
          assert all[i] == more[i - |names|];
        }
      }
    }
  }

  /** No two names handed out by one run are equal, whatever the keys. */
  lemma RunNamesDistinct<V>(l: ParameterList<V>, calls: seq<Call<V>>)
    ensures var names := Run(l, calls).0;
            forall i, j :: 0 <= i < j < |names| ==> names[i] != names[j]
  {
    RunNumbersNames(l, calls);
  }

  /** A run keeps every stored key well formed. */
  lemma {:induction false} RunPreservesWellFormed<V>(l: ParameterList<V>, calls: seq<Call<V>>)
    requires WellFormed(l)
    ensures WellFormed(Run(l, calls).1)
    decreases |calls|
  {
    if calls != [] {
      RunPreservesWellFormed(Perform(l, calls[0]).1, calls[1..]);
    }
  }

  /** Two `createParameterName` calls in a row return different names, even for the
      same key. */
  lemma CreateTwiceDistinct<V>(l: ParameterList<V>, key1: string, key2: string)
    ensures var (name1, l1) := CreateParameterName(l, key1);
            name1 != CreateParameterName(l1, key2).0
  {
  }

  /** A list built by calls from a well-formed list can always be copied, and the copy
      never hands out a name the original handed out before the copy was made. */
  lemma CopyContinuesNamespace<V>(l0: ParameterList<V>, before: seq<Call<V>>, order: seq<string>, after: seq<Call<V>>)
    requires WellFormed(l0)
    requires Enumerates(order, Run(l0, before).1.params.Keys)
    ensures CopyFrom(Run(l0, before).1, order).Success?
    ensures var earlier := Run(l0, before).0;
            var later := Run(CopyFrom(Run(l0, before).1, order).value, after).0;
            forall i, j :: 0 <= i < |earlier| && 0 <= j < |later| ==> earlier[i] != later[j]
  {
    var (earlier, l) := Run(l0, before);
    RunPreservesWellFormed(l0, before);
    RunNumbersNames(l0, before);
    var c := CopyFrom(l, order).value;
    RunNumbersNames(c, after);
  }
}

=== FILE: parameter_lists.dfy ===
/** The parameter registry of a query: a map from parameter key to value, plus the counter
    that numbers generated parameter names. Every operation is a pure function from the old
    list to the new one; a JavaScript exception becomes a `Failure`. */
module ParameterLists {
  import opened Results
  import opened KeyGrammar
  import opened Decimal
  import opened ParameterNames

  datatype ParameterList<V> = ParameterList(params: map<string, V>, nextId: nat)

  /** The two `ConditionError`s `addParameter` raises. */
  datatype Error = KeyFormat(key: string) | Conflict(key: string)

  /** Every stored key matches the key pattern, as it does for any list built only
      through `addParameter`. */
  predicate WellFormed<V>(l: ParameterList<V>) {
    forall k :: k in l.params ==> IsValidKey(k)
  }

  /** `new ParameterList()`. */
  function Fresh<V>(): (l: ParameterList<V>)
    ensures l.params == map[] && l.nextId == 0
    ensures WellFormed(l)
  {
    ParameterList(map[], 0)
  }

  /** `createParameterName(key)`: returns the sanitised key, an underscore and the old
      counter in canonical decimal, a name that decodes back to those two parts, and
      leaves the list with the counter one higher and the map as it was. */
  function CreateParameterName<V>(l: ParameterList<V>, key: string): (r: (string, ParameterList<V>))
    ensures r.0 == Sanitize(key) + [Separator] + NatToString(l.nextId)
    ensures SplitName(r.0) == Some((Sanitize(key), l.nextId))
    ensures r.1.params == l.params
    ensures r.1.nextId == l.nextId + 1
  {
    SplitParameterName(key, l.nextId);
    (ParameterName(key, l.nextId), l.(nextId := l.nextId + 1))
  }

  /** `addParameter(key, value, overwrite)`. */
  function AddParameter<V(==)>(l: ParameterList<V>, key: string, value: V, overwrite: bool)
    : (r: Result<ParameterList<V>, Error>)
    ensures !IsValidKey(key) ==> r == Failure(KeyFormat(key))
    ensures IsValidKey(key) && !overwrite && key in l.params && l.params[key] != value
            ==> r == Failure(Conflict(key))
    ensures r.Success? <==> IsValidKey(key) && (overwrite || key !in l.params || l.params[key] == value)
    ensures r.Success? ==> r.value.nextId == l.nextId
    ensures r.Success? ==> r.value.params.Keys == l.params.Keys + {key}
    ensures r.Success? ==> r.value.params[key] == value
    ensures r.Success? ==> forall k :: k in l.params && k != key ==> r.value.params[k] == l.params[k]
    ensures r.Success? && WellFormed(l) ==> WellFormed(r.value)
  {
    if !IsValidKey(key) then
      Failure(KeyFormat(key))
    else if key in l.params && l.params[key] != value && !overwrite then
      Failure(Conflict(key))
    else
      Success(l.(params := l.params[key := value]))
  }

  /** Adding a pair that was just added succeeds again and changes nothing, whatever the
      overwrite flag. */
  lemma AddParameterIdempotent<V>(l: ParameterList<V>, key: string, value: V, overwrite: bool, again: bool)
    requires AddParameter(l, key, value, overwrite).Success?
    ensures var l' := AddParameter(l, key, value, overwrite).value;
            AddParameter(l', key, value, again) == Success(l')
  {
    var l' := AddParameter(l, key, value, overwrite).value;
    assert l'.params[key := value] == l'.params;
  }

  /** What `addParameters` leaves behind: either every entry was applied, or the entry at
      `at` threw `error` after the entries before it had been applied. */
  datatype Batch<V> = Done(list: ParameterList<V>) | Stopped(error: Error, at: nat, partial: ParameterList<V>)

  /** `addParameters(params, overwrite)`: `addParameter` on each entry in turn, stopping at
      the first one that throws, without undoing the ones before it. */
  function AddParameters<V(==)>(l: ParameterList<V>, entries: seq<(string, V)>, overwrite: bool)
    : (r: Batch<V>)
    ensures r.Done? ==> r.list.nextId == l.nextId
    ensures r.Stopped? ==> r.at < |entries| && r.partial.nextId == l.nextId
    ensures r.Done? && WellFormed(l) ==> WellFormed(r.list)
    ensures r.Stopped? && WellFormed(l) ==> WellFormed(r.partial)
    decreases |entries|
  {
    if entries == [] then Done(l)
    else
      match AddParameter(l, entries[0].0, entries[0].1, overwrite)
      case Failure(e) => Stopped(e, 0, l)
      case Success(l1) =>
        match AddParameters(l1, entries[1..], overwrite)
        case Done(l2) => Done(l2)
        case Stopped(e, i, p) => Stopped(e, i + 1, p)
  }

  /** The map after storing every entry in order, later entries winning, with no checks. */
  function Store<V>(m: map<string, V>, entries: seq<(string, V)>): map<string, V>
    decreases |entries|
  {
    if entries == [] then m else Store(m[entries[0].0 := entries[0].1], entries[1..])
  }

  /** Entry `i` agrees with the map and with every earlier entry for the same key. */
  predicate Agrees<V(==)>(m: map<string, V>, entries: seq<(string, V)>, i: nat)
    requires i < |entries|
  {
    && (entries[i].0 in m ==> m[entries[i].0] == entries[i].1)
    && forall j :: 0 <= j < i && entries[j].0 == entries[i].0 ==> entries[j].1 == entries[i].1
  }

  /** A batch no entry of which can be refused, stated on the batch as a whole: every key
      is well formed and, unless overwriting, no key is given two different values, neither
      against the map nor within the batch. */
  predicate Admissible<V(==)>(m: map<string, V>, entries: seq<(string, V)>, overwrite: bool) {
    forall i :: 0 <= i < |entries| ==> IsValidKey(entries[i].0) && (overwrite || Agrees(m, entries, i))
  }

  lemma AdmissibleStep<V>(m: map<string, V>, entries: seq<(string, V)>, overwrite: bool)
    requires |entries| > 0
    ensures Admissible(m, entries, overwrite)
        <==> && IsValidKey(entries[0].0)
             && (overwrite || entries[0].0 !in m || m[entries[0].0] == entries[0].1)
             && Admissible(m[entries[0].0 := entries[0].1], entries[1..], overwrite)
  {
  }

  /** `addParameters` is the fold of `addParameter`, characterised without the fold: it
      completes exactly when the batch is admissible, and then stores every entry. When it
      stops at entry `at`, the entries before it form an admissible batch and are all
      stored, nothing after it is, and entry `at` is refused by the list they leave. */
  lemma {:induction false} AddParametersCharacterised<V>(l: ParameterList<V>, entries: seq<(string, V)>, overwrite: bool)
    ensures AddParameters(l, entries, overwrite).Done? <==> Admissible(l.params, entries, overwrite)
    ensures var r := AddParameters(l, entries, overwrite);
            r.Done? ==> r.list == ParameterList(Store(l.params, entries), l.nextId)
    ensures var r := AddParameters(l, entries, overwrite);
            r.Stopped? ==>
              && r.at < |entries|
              && r.partial == ParameterList(Store(l.params, entries[..r.at]), l.nextId)
              && Admissible(l.params, entries[..r.at], overwrite)
              && AddParameter(r.partial, entries[r.at].0, entries[r.at].1, overwrite) == Failure(r.error)
    decreases |entries|
  {
    if entries == [] {
      return;
    }
    var k0, v0 := entries[0].0, entries[0].1;
    var rest := entries[1..];
    AdmissibleStep(l.params, entries, overwrite);
    match AddParameter(l, k0, v0, overwrite)
    case Failure(e) =>
      assert entries[..0] == [];
    case Success(l1) =>
      AddParametersCharacterised(l1, rest, overwrite);
      var r1 := AddParameters(l1, rest, overwrite);
      if r1.Stopped? {
        PrefixStep(l.params, entries, r1.at, overwrite);
      }
  }

  /** A prefix of length `i + 1` splits into the first entry and a prefix of length `i`
      of the rest, both for storing and for admissibility. */
  lemma PrefixStep<V>(m: map<string, V>, entries: seq<(string, V)>, i: nat, overwrite: bool)
    requires i < |entries| - 1
    ensures Store(m, entries[..i + 1]) == Store(m[entries[0].0 := entries[0].1], entries[1..][..i])
    ensures Admissible(m, entries[..i + 1], overwrite)
        <==> && IsValidKey(entries[0].0)
             && (overwrite || entries[0].0 !in m || m[entries[0].0] == entries[0].1)
             && Admissible(m[entries[0].0 := entries[0].1], entries[1..][..i], overwrite)
  {
    var prefix := entries[..i + 1];
    assert prefix[0] == entries[0];
    assert prefix[1..] == entries[1..][..i];
    AdmissibleStep(m, prefix, overwrite);
  }

  /** `for (let key in params)` visits each key of `keys` exactly once, in the order of `order`. */
  predicate Enumerates(order: seq<string>, keys: set<string>) {
    && (forall i :: 0 <= i < |order| ==> order[i] in keys)
    && (forall k :: k in keys ==> k in order)
    && (forall i, j :: 0 <= i < j < |order| ==> order[i] != order[j])
  }

  /** The entries of `m` in the order `order` lists their keys. */
  function Entries<V>(m: map<string, V>, order: seq<string>): (es: seq<(string, V)>)
    requires forall i :: 0 <= i < |order| ==> order[i] in m
    ensures |es| == |order|
    ensures forall i :: 0 <= i < |order| ==> es[i] == (order[i], m[order[i]])
    decreases |order|
  {
    if order == [] then [] else [(order[0], m[order[0]])] + Entries(m, order[1..])
  }

  /** The entries of `src` whose keys `order` lists. */
  function Restrict<V>(src: map<string, V>, order: seq<string>): map<string, V> {
    map k | k in src && k in order :: src[k]
  }

  lemma RestrictStep<V>(m: map<string, V>, src: map<string, V>, order: seq<string>)
    requires |order| > 0 && order[0] in src && order[0] !in order[1..]
    ensures m[order[0] := src[order[0]]] + Restrict(src, order[1..]) == m + Restrict(src, order)
  {
  }

  /** Copying distinct keys that the target does not hold yet: the copy completes exactly
      when every copied key is well formed, and then adds exactly the copied entries; a
      copy that stops, stops on a malformed key. */
  lemma {:induction false} CopyEntries<V>(l: ParameterList<V>, src: map<string, V>, order: seq<string>)
    requires forall i :: 0 <= i < |order| ==> order[i] in src && order[i] !in l.params
    requires forall i, j :: 0 <= i < j < |order| ==> order[i] != order[j]
    ensures var r := AddParameters(l, Entries(src, order), false);
            r.Done? <==> forall i :: 0 <= i < |order| ==> IsValidKey(order[i])
    ensures var r := AddParameters(l, Entries(src, order), false);
            r.Done? ==> r.list == ParameterList(l.params + Restrict(src, order), l.nextId)
    ensures var r := AddParameters(l, Entries(src, order), false);
            r.Stopped? ==> r.error.KeyFormat? && r.error.key in order && !IsValidKey(r.error.key)
    decreases |order|
  {
    var es := Entries(src, order);
    if order == [] {
      assert Restrict(src, order) == map[];
      assert l.params + map[] == l.params;
      return;
    }
    var k0 := order[0];
    var rest := order[1..];
    assert es[0] == (k0, src[k0]);
    assert es[1..] == Entries(src, rest);
    if AddParameter(l, k0, src[k0], false).Success? {
      var l1 := AddParameter(l, k0, src[k0], false).value;
      CopyTail(l, l1, src, order);
      CopyEntries(l1, src, rest);
      var r1 := AddParameters(l1, Entries(src, rest), false);
      if r1.Done? {
        forall i | 0 <= i < |order|
          ensures IsValidKey(order[i])
        {
          if i > 0 {
            assert order[i] == rest[i - 1];
          }
        }
        assert k0 !in rest;
        RestrictStep(l.params, src, order);
      } else {
        var i :| 0 <= i < |rest| && !IsValidKey(rest[i]);
        assert rest[i] == order[i + 1];
      }
    }
  }

  /** After the first key of a distinct listing is added, the rest of the listing still
      names keys of `src` that the list does not hold. */
  lemma CopyTail<V>(l: ParameterList<V>, l1: ParameterList<V>, src: map<string, V>, order: seq<string>)
    requires |order| > 0 && l1.params.Keys == l.params.Keys + {order[0]}
    requires forall i :: 0 <= i < |order| ==> order[i] in src && order[i] !in l.params
    requires forall i, j :: 0 <= i < j < |order| ==> order[i] != order[j]
    ensures forall i :: 0 <= i < |order[1..]| ==> order[1..][i] in src && order[1..][i] !in l1.params
  {
  }

  /** Adding the entries of a source to a fresh list, in any enumeration order: it
      completes exactly when every source key is well formed, and then holds exactly the
      source's entries; otherwise it stops on a malformed source key. */
  lemma CopyIntoFresh<V>(source: ParameterList<V>, order: seq<string>)
    requires Enumerates(order, source.params.Keys)
    ensures var r := AddParameters(Fresh(), Entries(source.params, order), false);
            && (r.Done? <==> WellFormed(source))
            && (r.Done? ==> r.list.params == source.params)
            && (r.Stopped? ==> r.error.KeyFormat? && r.error.key in source.params && !IsValidKey(r.error.key))
  {
    CopyEntries(Fresh(), source.params, order);
    assert map[] + Restrict(source.params, order) == source.params;
  }

  /** `new ParameterList(source)`: `addParameters(source.params)` on a fresh list, visiting
      the keys in `order`, then continuing the source's counter. It throws on the first
      malformed key it meets, and then no list is constructed. */
  function CopyFrom<V(==)>(source: ParameterList<V>, order: seq<string>): (r: Result<ParameterList<V>, Error>)
    requires Enumerates(order, source.params.Keys)
    ensures r.Success? <==> WellFormed(source)
    ensures r.Success? ==> r.value == source
    ensures r.Failure? ==> r.error.KeyFormat? && r.error.key in source.params && !IsValidKey(r.error.key)
  {
    CopyIntoFresh(source, order);
    match AddParameters(Fresh(), Entries(source.params, order), false)
    case Done(l) => Success(l.(nextId := source.nextId))
    case Stopped(e, _, _) => Failure(e)
  }
}

=== FILE: parameter_names.dfy ===
/** Generated parameter names: the sanitised key, an underscore, and the decimal counter.
    Because the counter's digits never contain an underscore, the last underscore of a
    generated name separates the two parts, so a name can be taken apart again. */
module ParameterNames {
  import opened Results
  import opened Decimal
  import opened KeyGrammar

  const Separator: char := '_'

  /** The name `createParameterName(key)` returns when the counter stands at `id`. */
  function ParameterName(key: string, id: nat): string {
    Sanitize(key) + [Separator] + NatToString(id)
  }

  /** The position of the last occurrence of `c` in `s`, if any. */
  function LastIndexOf(s: string, c: char): (r: Option<nat>)
    ensures r.Some? ==> r.value < |s| && s[r.value] == c
    ensures r.Some? ==> forall j :: r.value < j < |s| ==> s[j] != c
    ensures r.None? ==> forall j :: 0 <= j < |s| ==> s[j] != c
    decreases |s|
  {
    if s == [] then None
    else if s[|s| - 1] == c then Some(|s| - 1)
    else LastIndexOf(s[..|s| - 1], c)
  }

  /** Splits a name at its last underscore into a prefix and the number its digit suffix
      spells; `None` when there is no underscore or the suffix is not a numeral. */
  function SplitName(name: string): Option<(string, nat)> {
    match LastIndexOf(name, Separator)
    case None => None
    case Some(i) =>
      var digits := name[i + 1..];
      if |digits| > 0 && AllDigits(digits) then Some((name[..i], ParseDigits(digits))) else None
  }

  /** A generated name gives back the sanitised key and the counter it was made from. */
  lemma SplitParameterName(key: string, id: nat)
    ensures SplitName(ParameterName(key, id)) == Some((Sanitize(key), id))
  {
    var p := Sanitize(key);
    var d := NatToString(id);
    var name := ParameterName(key, id);
    assert name[|p|] == Separator;
    forall j | |p| < j < |name|
      ensures name[j] != Separator
    {
      assert name[j] == d[j - |p| - 1];
    }
    var last := LastIndexOf(name, Separator);
    assert last == Some(|p|);
    assert name[|p| + 1..] == d;
    assert name[..|p|] == p;
    ParseNatToString(id);
  }

  /** Two generated names coincide exactly when both the sanitised keys and the counters do. */
  lemma ParameterNamesDistinct(key1: string, id1: nat, key2: string, id2: nat)
    ensures ParameterName(key1, id1) == ParameterName(key2, id2)
        <==> Sanitize(key1) == Sanitize(key2) && id1 == id2
  {
    SplitParameterName(key1, id1);
    SplitParameterName(key2, id2);
  }

  /** A generated name is itself an acceptable parameter key exactly when the key it was
      made from starts with an ASCII letter. */
  lemma ParameterNameIsValidKey(key: string, id: nat)
    ensures IsValidKey(ParameterName(key, id)) <==> |key| > 0 && IsAsciiLetter(key[0])
  {
  }
}

=== FILE: prototype_lookup.dfy ===
/** The conflict test of `addParameter` as the source writes it. The parameter store is a
    plain object literal, so reading `this.params[key]` for a key the object does not own
    falls through to `Object.prototype`: for the prototype's members whose names match the
    key pattern the read yields a built-in function rather than `undefined`. The test then
    sees an "existing, different value" and throws. The rest of the model uses
    `ParameterLists.AddParameter`, which looks at the list's own entries only. */
module PrototypeLookup {
  import opened Results
  import opened KeyGrammar
  import opened ParameterLists

  /** The members of `Object.prototype` whose names pass the key pattern. */
  const InheritedNames: set<string> :=
    {"constructor", "hasOwnProperty", "isPrototypeOf", "propertyIsEnumerable",
     "toLocaleString", "toString", "valueOf"}

  /** What `this.params[key]` evaluates to for a key that passes the key pattern. */
  datatype Slot<V> = Missing | Own(value: V) | Inherited(name: string)

  function Lookup<V>(params: map<string, V>, key: string): (s: Slot<V>)
    requires IsValidKey(key)
    ensures s.Missing? <==> key !in params && key !in InheritedNames
    ensures key in params ==> s == Own(params[key])
  {
    if key in params then Own(params[key])
    else if key in InheritedNames then Inherited(key)
    else Missing
  }

  /** `addParameter(key, value, overwrite)` with the prototype-backed read. A built-in
      function is never a value a caller stores, so an inherited slot never equals `value`. */
  function AddParameterAsWritten<V(==)>(l: ParameterList<V>, key: string, value: V, overwrite: bool)
    : (r: Result<ParameterList<V>, Error>)
    ensures key in InheritedNames && key !in l.params && !overwrite ==> r == Failure(Conflict(key))
    ensures key !in InheritedNames ==> r == AddParameter(l, key, value, overwrite)
    ensures r.Success? ==> r == AddParameter(l, key, value, overwrite)
  {
    if !IsValidKey(key) then
      Failure(KeyFormat(key))
    else
      var slot := Lookup(l.params, key);
      if !slot.Missing? && slot != Own(value) && !overwrite then
        Failure(Conflict(key))
      else
        Success(l.(params := l.params[key := value]))
  }

  /** On a fresh list, adding any value under the key `constructor` throws a conflict as
      written, although the list holds nothing; the corrected operation stores it. */
  lemma ConstructorKeyConflicts<V>(value: V)
    ensures AddParameterAsWritten(Fresh(), "constructor", value, false) == Failure(Conflict("constructor"))
    ensures AddParameter(Fresh(), "constructor", value, false) == Success(ParameterList(map["constructor" := value], 0))
  {
  }

  /** The same holds for every inherited name that passes the key pattern: the key is
      refused as written and accepted by the corrected operation. */
  lemma InheritedKeysConflict<V>(key: string, value: V)
    requires key in InheritedNames
    ensures AddParameterAsWritten(Fresh(), key, value, false) == Failure(Conflict(key))
    ensures AddParameter(Fresh(), key, value, false).Success?
  {
  }

  /** `addParameters(params, overwrite)` over the as-written `addParameter`. */
  function AddParametersAsWritten<V(==)>(l: ParameterList<V>, entries: seq<(string, V)>, overwrite: bool)
    : (r: Batch<V>)
    ensures r.Stopped? ==> r.at < |entries|
    ensures r.Done? ==> AddParameters(l, entries, overwrite) == r
    decreases |entries|
  {
    if entries == [] then Done(l)
    else
      match AddParameterAsWritten(l, entries[0].0, entries[0].1, overwrite)
      case Failure(e) => Stopped(e, 0, l)
      case Success(l1) =>
        match AddParametersAsWritten(l1, entries[1..], overwrite)
        case Done(l2) => Done(l2)
        case Stopped(e, i, p) => Stopped(e, i + 1, p)
  }

  /** `new ParameterList(source)` over the as-written `addParameter`. */
  function CopyFromAsWritten<V(==)>(source: ParameterList<V>, order: seq<string>): (r: Result<ParameterList<V>, Error>)
    requires Enumerates(order, source.params.Keys)
    ensures r.Success? ==> r == CopyFrom(source, order)
  {
    match AddParametersAsWritten(Fresh(), Entries(source.params, order), false)
    case Done(l) => Success(l.(nextId := source.nextId))
    case Stopped(e, _, _) => Failure(e)
  }

  /** Copying distinct keys the target does not hold, without overwrite, stops as written
      as soon as one of the copied keys is an inherited name, wherever it comes in the
      order. */
  lemma {:induction false} CopyStopsOnInherited<V>(l: ParameterList<V>, src: map<string, V>, order: seq<string>, key: string)
    requires forall i :: 0 <= i < |order| ==> order[i] in src && order[i] !in l.params
    requires forall i, j :: 0 <= i < j < |order| ==> order[i] != order[j]
    requires key in order && key in InheritedNames
    ensures AddParametersAsWritten(l, Entries(src, order), false).Stopped?
    decreases |order|
  {
    var es := Entries(src, order);
    var k0 := order[0];
    assert es[0] == (k0, src[k0]);
    assert es[1..] == Entries(src, order[1..]);
    if k0 != key && AddParameterAsWritten(l, k0, src[k0], false).Success? {
      var l1 := AddParameterAsWritten(l, k0, src[k0], false).value;
      var rest := order[1..];
      forall i | 0 <= i < |rest|
        ensures rest[i] in src && rest[i] !in l1.params
      {
        assert rest[i] == order[i + 1];
      }
      assert key in rest;
      CopyStopsOnInherited(l1, src, rest, key);
    }
  }

  /** As written, copy-constructing from a list that holds an inherited name (stored there
      with `overwrite`) throws for every enumeration order, although the list is well
      formed and the corrected copy returns it unchanged. */
  lemma CopyOfInheritedKeyFails<V>(source: ParameterList<V>, order: seq<string>, key: string)
    requires Enumerates(order, source.params.Keys)
    requires WellFormed(source)
    requires key in source.params && key in InheritedNames
    ensures CopyFromAsWritten(source, order).Failure?
    ensures CopyFrom(source, order) == Success(source)
  {
    CopyStopsOnInherited(Fresh(), source.params, order, key);
  }
}

=== FILE: results.dfy ===
/** Failure-carrying datatypes shared by the model: an `Option` for values that may be
    absent and a `Result` standing in for a call that either returns or throws. */
module Results {

  datatype Option<+T> = None | Some(value: T)

  datatype Result<+T, +E> = Success(value: T) | Failure(error: E)
}
